=== FILE: README.md ===
# dekorator dependency injection, modelled in Dafny

dekorator ships an ultra-light dependency-injection engine of four
operations. `inject(...types)` attaches a dependency list to a class or to a
decorated method's function value. `register(Type)` lazily creates and caches
a zero-argument resolver for a type. `singleton(Type)` installs a resolver
that builds one instance on its first call and then replaces itself with a
constant. `invoke(Type, ...overrides)` optionally overwrites the type's list
with the overrides and then calls the registered resolver. The private
`resolver(Type)` decides, at the moment it is created, whether the resolver
resolves the type's list through `invoke` and passes the instances
positionally (a list is attached) or constructs the type with no arguments.

The model (`engine.dfy`, module `Engine`) keeps the two Symbol-keyed
properties as side tables of an explicit `State`: `deps` maps a type to its
attached list and `resolvers` maps a type to its cached resolver, a datatype
`NoDeps | WithDeps | SingletonPending | SingletonDone(inst)`. Construction
appends an object record (its type and the instances it received) to an
object heap, so the heap is also the construction trace. Every operation is a
pure function from state to state. Resolution is mutually recursive
(`Resolve`, `Call`, `BuildSingleton`, `RunFresh`, `WithDepsRun`,
`ResolveArgs`) and terminates because a
caller-supplied `rank` on types strictly decreases along every dependency
edge (`Acyclic`). `Valid` is the invariant every operation keeps, and
`Extends` says what a nested resolution may change: lists never, objects
only by appending, resolvers only by adding or by caching types ranked below
the one being resolved. `Kept` says how it may change a resolver: a cached
one stays cached, a new one has the shape `register` gives it, and only a
pending singleton changes, into a built one. A built singleton is never
constructed again, and a pending one at most once.

`MakeResolver` (the shape choice `resolver(Type)` makes, src/index.ts:27)
and `Construct` (`new`, src/index.ts:37, 45) are definitions; what they mean
is stated by `ResolverShapeAtCreation`, `WithDepsConstruction` and
`NoDepsConstruction`.

`facts.dfy` (module `EngineFacts`) relates several calls: argument order,
caching, the shape fixed at creation, overrides, and the singleton's
construct-once behaviour. `scenario.dfy` (module `SingletonScenario`)
replays the library's own test, with a singleton `One` shared by `Two` and
`Three`.

`src/index.ts` is the authoritative engine. `dist/index.js` is its compiled
output and `lib/index.js` an older copy. The five engine functions of both
copies match `src/index.ts`: the compiled copy collects rest parameters with
`arguments` loops, and the older copy's no-list resolver calls `new Type()`,
which is the same zero-argument construction. The older copy as written does
not load, though: lib/index.js:151 exports again the names already exported
at lib/index.js:76, 103 and 140, which is a syntax error for an ES module.

Overrides passed to `invoke` only rewrite the type's list
(src/index.ts:140-141). The resolver that then runs is the cached one, whose
shape was fixed when it was created. So a cached no-list resolver still
constructs with no arguments, and a built singleton still returns its
instance (`NoDepsIgnoresOverrides`, `SingletonLaterCalls`). The overrides
take effect only when the resolver still reads the list
(`OverridesApplied`).

JavaScript truthiness is modelled as presence: a type "has a list" when a
list is attached, even an empty one (an empty array is truthy), and "has a
resolver" when one is cached.

## Model

| member | source | states |
|---|---|---|
| EngineFacts.ResolverShapeAtCreation | src/index.ts:25-49 | for a type with nothing cached, the resolver created reads the list exactly when one is attached now and stays cached; with a list the instance receives one existing instance per listed type, in order, without one it receives nothing |
| Engine.Register | src/index.ts:58-65 | the type has a cached resolver afterwards and that resolver is returned; an already cached resolver is returned and nothing changes; otherwise the new resolver's shape follows whether a list is attached now; no other resolver, list or object changes |
| Engine.Singleton | src/index.ts:74-90 | the type's resolver becomes the pending singleton whatever was cached before; no other type's resolver, no list and no object changes |
| Engine.Inject | src/index.ts:100-123 | the list is stored on the descriptor's function value when a descriptor is given, else on the target; the stored list is exactly the given types; every other list is unchanged, including the target's when the descriptor names another function |
| Engine.ResolveArgs | src/index.ts:31-35 | resolving a list yields one existing instance per entry, of that entry's type, position by position; every entry naming a singleton receives the instance that singleton's cached resolver returns afterwards; it changes no list, keeps every resolver, and only appends objects of types ranked below the bound |
| Engine.WithDepsRun | src/index.ts:29-39 | a with-list resolver constructs the type last, from existing instances whose types are its current list position by position; an argument whose listed type is a singleton is that singleton's cached instance afterwards; everything built before it ranks below it |
| Engine.RunFresh | src/index.ts:78 | `resolver(Type)()` on a resolver that is not cached: with a list attached now the type is built last from exactly the instances the list resolves to, without one from no arguments and nothing else; every argument whose listed type is a singleton is that singleton's cached instance afterwards; the type's own entry is untouched |
| Engine.BuildSingleton | src/index.ts:76-86 | the first call of a singleton's resolver builds the type from the instances its current list resolves to, or from no arguments when it has none; that instance is the last object and the only one of its type built by the call, and every argument whose listed type is a singleton is that singleton's cached instance afterwards; the constant resolver returning it is cached, and every other resolver is kept in the sense of `Kept` |
| Engine.Call | src/index.ts:29-88 | a pending singleton builds one fresh instance, the only one of its type, and caches the constant resolver returning it; a built singleton returns its instance with no change to the engine; other resolvers build a fresh instance and leave their cache entry as it was |
| Engine.Resolve | src/index.ts:143 | `register(Type)()` returns an instance of the type, leaves the type with a cached resolver, changes no list, keeps every resolver in the sense of `Kept` and keeps the engine valid; for a singleton, the instance returned is the one its cached resolver returns from then on |
| Engine.Invoke | src/index.ts:136-145 | non-empty overrides become the type's list and persist after the call; no other list changes; without overrides no list changes; objects are only appended and cached resolvers are never removed |
| EngineFacts.InvokeWithoutOverrides | dist/index.js:107-117 | `invoke` with no extra arguments is exactly the registered resolver's call and leaves every list as it was |
| EngineFacts.RegisterIdempotent | lib/index.js:58-65 | a second `register` of the same type returns the same resolver and changes nothing |
| EngineFacts.ShapeFixedAtCreation | src/index.ts:60-61 | once a resolver is cached, attaching any list anywhere does not change what `register` returns |
| EngineFacts.InjectLastWriteWins | dist/index.js:76-92 | attaching twice to the same place leaves only the second list: lists are overwritten, not merged |
| EngineFacts.ArgsResolvedLeftToRight | src/index.ts:31-35 | the k-th argument is `invoke` of the k-th listed type run in the state the first k entries left behind |
| EngineFacts.WithDepsConstruction | dist/index.js:22-28 | a type with a list whose resolver reads it (a with-list resolver, cached or about to be, or a singleton's first call) is constructed last, with exactly the instances its current list resolves to |
| EngineFacts.WithDepsPositional | lib/index.js:28-40 | each argument of that construction is `invoke` of the listed type at its position, after the entries before it: positional, left to right |
| EngineFacts.NoDepsConstruction | dist/index.js:30-33 | a type with no list and no cached resolver, or with a cached no-list resolver, is constructed with zero arguments and nothing else is built |
| EngineFacts.NoDepsIgnoresOverrides | src/index.ts:42-46 | a cached no-list resolver still constructs with no arguments when `invoke` passes overrides, although the overrides persist as the list |
| EngineFacts.OverridesApplied | src/index.ts:140-143 | when the resolver still reads the list, `invoke` constructs the type last, from exactly the instances the override list resolves to after the override is attached: one per override, of that override's type, in order |
| EngineFacts.SingletonFirstCall | dist/index.js:56-64 | the first call of a pending singleton builds one fresh instance, the only one of its type, and caches the constant resolver returning it |
| EngineFacts.SingletonLaterCalls | src/index.ts:80-84 | `invoke` of a built singleton returns its instance with no construction and no resolver change, even with overrides, which are only recorded; with `SingletonStaysBuilt` this covers every later `invoke` |
| EngineFacts.SingletonStaysBuilt | src/index.ts:80-84 | an `invoke` of any type, with any overrides, leaves a built singleton built with the same instance and constructs no further instance of it |
| EngineFacts.BuiltSingletonInEveryEntry | src/index.ts:31-35 | every list entry naming a built singleton, at any position and however often, receives that singleton's one instance |
| EngineFacts.SingletonConstructedOnce | lib/index.js:76-92 | two calls of a pending singleton return the identical instance, leave identical state, and construct the type once |
| EngineFacts.TransientFresh | src/index.ts:29-47 | a non-singleton type gets a fresh instance at the end of the heap on every call and its cached resolver stays as registered |
| EngineFacts.TransientTwiceDistinct | src/index.ts:29-47 | two calls of a non-singleton type return two distinct instances of that type |
| EngineFacts.DependentOfPendingSingleton | src/index.ts:76-86 | a type with no resolver or a with-list one, whose list is `[s]` for a pending singleton `s`, is constructed right after the singleton's single instance and receives it as its one argument; the singleton is then cached as built |
| EngineFacts.PendingDependentFrame | src/index.ts:76-86 | for such a dependent of a pending singleton, that resolution changes no list and no resolver ranked above the singleton other than the dependent's own |
| EngineFacts.PendingDependentObjects | src/index.ts:76-78 | for such a dependent of a pending singleton that has no list, that resolution appends exactly the singleton, with no arguments, and then the dependent |
| EngineFacts.NoDepsConstructionOfPending | lib/index.js:80 | a pending singleton without a list is built with zero arguments and nothing else |
| EngineFacts.DependentOfBuiltSingleton | src/index.ts:80-84 | a type with no resolver or a with-list one, whose list is `[s]` for a built singleton `s`, is constructed alone, receiving the singleton's existing instance |
| EngineFacts.ReceivesSingleton | src/index.ts:29-86 | a type whose resolver reads its list (a with-list resolver, cached or about to be, or a pending singleton's first call) and whose list names a singleton at some position leaves that singleton built with the very instance it received at that position |
| EngineFacts.ResolveShape | src/index.ts:29-88 | `register(Type)()` on a built singleton returns its instance and changes nothing; on any other resolver, cached or about to be, it constructs a new instance that is the last object |
| EngineFacts.SharedSingleton | src/index.ts:29-90 | two types whose resolvers read their lists (with-list resolvers, cached or about to be, or pending singletons) and whose lists name one singleton, pending or built, at any positions receive the identical instance when invoked one after the other; that instance is the one the cached resolver returns, and no other instance of the singleton is built; the second type gets a new instance, the last object, unless the first resolution left it a built singleton, in which case it returns that cached instance and nothing changes |
| SingletonScenario.Declared | test/test.spec.ts:9-37 | after the three class decorators, `One` is a pending singleton, `Two` and `Three` each list `One`, nothing is cached for them and nothing is built |
| SingletonScenario.InvokeTwoThenThree | test/test.spec.ts:41-53 | `invoke(Two)` then `invoke(Three)` builds `One`, `Two`, `Three` in that order; both receive the one `One` instance, whose `loaded` list names all three classes in order |

## Left out

- gulpfile.js: build, commit, version-bump and publish tooling; it has no engine logic.
- dist/index.d.ts: type declarations only.
- Symbol-keyed properties, `Function.prototype.bind.apply` and decorator syntax: replaced by side tables keyed by type identity and by explicit `Inject` and `Singleton` calls.
- The duplicate export at lib/index.js:151, which makes that module a syntax error as written: the model follows its engine functions as if the line were absent.
- Constructor bodies and exceptions: construction is an abstract fresh object record. The engine catches nothing, so a throwing constructor would abort the whole `invoke`; that path is not modelled. The scenario's `loaded` list is computed from the heap (`Loaded`) rather than by running constructors.
- The unused `key` argument of the function `inject` returns: the code never reads it.
- Engine.Resolve: termination is shown with a caller-supplied rank that must decrease along every edge of the whole dependency table (`Acyclic`). The code recurses only through resolvers that read a list, so a cycle is followed only when such resolvers reach it, and then the code recurses until the JavaScript stack overflows. Tables with a cycle that is never followed are outside the model.
- Engine.Invoke: `Acyclic` is required of the whole table after the overrides, so calls that would not recurse are excluded when the table has a cycle. Examples are `invoke(T, T)` on a type whose no-list resolver is cached, for which the code returns a fresh `T`, and `invoke(One, Two)` after the test's declarations have been resolved.
- EngineFacts.NoDepsIgnoresOverrides: proved only when the table with the overrides is acyclic; the code also ignores overrides that close a cycle, such as `invoke(T, T)`.
- EngineFacts.SingletonStaysBuilt: proved only when the table with the overrides is acyclic; an `invoke` whose overrides close a cycle that the call never follows, such as `invoke(T, T)` on a cached no-list `T`, also leaves a built singleton as it was, and that case is outside the model.
- EngineFacts.SingletonLaterCalls: proved only when the table with the overrides is acyclic; the code returns the built instance even when the overrides close a cycle.
- Engine.Call: runs the resolver cached for the type, as `register(Type)()` does. A caller that holds on to the pending singleton closure and calls it again after it has replaced itself would build a second instance; held closures are not modelled.
- Prototype-chain lookup: `Type[_register]` and `Type[_dependencies]` are ordinary property reads, so a subclass with no entries of its own inherits its parent's list and cached resolver, and `invoke` of such a subclass can construct the parent. In the model every type is independent.
- Type errors: a descriptor without `value` (an accessor decorator) makes `inject` throw at src/index.ts:108-109, and a list entry that is not a class (such as `undefined` from a circular import) makes the nested `invoke` throw at src/index.ts:60. In the model a type is an identity and a descriptor always carries a value, so neither path exists.
- Re-entrant calls through user constructors (a constructor that calls `invoke` itself) and concurrency: the model resolves one call at a time.
- The mocha and chai harness of the tests: only the test's assertions are restated, as `InvokeTwoThenThree`.

=== FILE: engine.dfy ===
/** A model of the dependency-injection engine of the dekorator library.

The JavaScript engine hides two pieces of per-type state behind Symbol keys on
the class object: the attached dependency list and the cached resolver
function. Here both live in side tables of an explicit engine `State`, keyed by
the type's identity. Construction is modelled abstractly: constructing a type
appends a fresh object record (the type and the instances it received as
positional arguments) to an object heap, so the heap doubles as the
construction trace.

Every operation is a pure function from engine state to engine state. The
recursive resolution through `invoke` terminates only on acyclic dependency
graphs; the functions take a `rank` on types that strictly decreases along
every dependency edge.
*/
module Engine {

  /** The identity of a type: a class, or a decorated method's function value. */
  type TypeId = nat

  /** The identity of a constructed object: its index in the object heap. */
  type InstanceId = nat

  datatype Option<T> = None | Some(value: T)

  /** The zero-argument factory cached for a type.
      - NoDeps: constructs the type with no arguments.
      - WithDeps: reads the type's current dependency list, resolves each entry
        through `invoke`, and constructs the type with the results.
      - SingletonPending: the resolver installed by `singleton`; on its first
        call it builds one instance and replaces itself.
      - SingletonDone(inst): the constant resolver that returns `inst`. */
  datatype Resolver =
    | NoDeps
    | WithDeps
    | SingletonPending
    | SingletonDone(inst: InstanceId)

  /** A constructed object: its type and the positional constructor arguments. */
  datatype Obj = Obj(ty: TypeId, args: seq<InstanceId>)

  /** The whole engine state: both side tables and the object heap. */
  datatype State = State(
    deps: map<TypeId, seq<TypeId>>,
    resolvers: map<TypeId, Resolver>,
    objects: seq<Obj>)

  /** A property descriptor handed to a method decorator; `value` is the
      method's function value, itself usable as a type. */
  datatype Descriptor = Descriptor(value: TypeId)

  /** The state after a resolution together with the instance it produced. */
  datatype Step = Step(st: State, inst: InstanceId)

  /** The state after resolving a list together with the instances, in order. */
  datatype Steps = Steps(st: State, insts: seq<InstanceId>)

  /** The state after `register` together with the resolver it returned. */
  datatype Registered = Registered(st: State, resolver: Resolver)

  /** Process start: nothing attached, nothing cached, nothing constructed. */
  const Init: State := State(map[], map[], [])

  /** The dependency list attached to `u`, if any. */
  function ListOf(deps: map<TypeId, seq<TypeId>>, u: TypeId): Option<seq<TypeId>>
  {
    if u in deps then Some(deps[u]) else None
  }

  /** The resolver cached for `u`, if any. */
  function ResolverOf(st: State, u: TypeId): Option<Resolver>
  {
    if u in st.resolvers then Some(st.resolvers[u]) else None
  }

  /** The sequence of constructed types, in construction order. */
  function Trace(st: State): (tr: seq<TypeId>)
  {
    seq(|st.objects|, k requires 0 <= k < |st.objects| => st.objects[k].ty)
  }

  /** The states the engine can reach: a cached with-deps resolver always finds
      a list to read, a constant singleton resolver returns an existing
      instance of its own type, and every object's arguments were constructed
      before it. */
  ghost predicate Valid(st: State)
  {
    && (forall t :: t in st.resolvers && st.resolvers[t].WithDeps? ==> t in st.deps)
    && (forall t :: t in st.resolvers && st.resolvers[t].SingletonDone? ==>
          st.resolvers[t].inst < |st.objects| && st.objects[st.resolvers[t].inst].ty == t)
    && (forall k, j :: 0 <= k < |st.objects| && 0 <= j < |st.objects[k].args| ==>
          st.objects[k].args[j] < k)
  }

  /** Every dependency edge strictly decreases `rank`: the graph is acyclic. */
  ghost predicate Acyclic(deps: map<TypeId, seq<TypeId>>, rank: TypeId -> nat)
  {
    forall t, i :: t in deps && 0 <= i < |deps[t]| ==> rank(deps[t][i]) < rank(t)
  }

  /** `st2` arises from `st` by resolving types of rank below `below`: no list
      changes, objects are only appended and all have rank below `below`,
      resolvers are only added, and none of rank at least `below` changes. */
  ghost predicate Extends(st: State, st2: State, below: nat, rank: TypeId -> nat)
  {
    && st2.deps == st.deps
    && st.objects <= st2.objects
    && (forall k :: |st.objects| <= k < |st2.objects| ==> rank(st2.objects[k].ty) < below)
    && st.resolvers.Keys <= st2.resolvers.Keys
    && (forall u :: u in st2.resolvers && rank(u) >= below ==>
          u in st.resolvers && st2.resolvers[u] == st.resolvers[u])
  }

  lemma ExtendsTrans(st1: State, st2: State, st3: State, b1: nat, b2: nat, b: nat, rank: TypeId -> nat)
    requires Extends(st1, st2, b1, rank) && Extends(st2, st3, b2, rank)
    requires b1 <= b && b2 <= b
    ensures Extends(st1, st3, b, rank)
  {
    forall k | |st1.objects| <= k < |st3.objects|
      ensures rank(st3.objects[k].ty) < b
    {
      if k < |st2.objects| {
        assert st3.objects[k] == st2.objects[k];
      }
    }
  }

  /** `u` has a singleton resolver cached, pending or built. */
  ghost predicate IsSingleton(st: State, u: TypeId)
  {
    u in st.resolvers && (st.resolvers[u].SingletonPending? || st.resolvers[u].SingletonDone?)
  }

  /** No object of type `u` was constructed between `st` and `st2`. */
  ghost predicate NoneBuilt(st: State, st2: State, u: TypeId)
  {
    forall k :: |st.objects| <= k < |st2.objects| ==> st2.objects[k].ty != u
  }

  /** Instance `i` is the only object of type `u` constructed between `st`
      and `st2`, if any was. */
  ghost predicate OnlyBuilt(st: State, st2: State, u: TypeId, i: InstanceId)
  {
    forall k :: |st.objects| <= k < |st2.objects| && st2.objects[k].ty == u ==> k == i
  }

  /** Object `j`, of type `t`, was built from `t`'s list as it stands in `st`:
      one argument per entry, and every entry naming a singleton received the
      instance that singleton's cached resolver returns in `st2`. */
  ghost predicate ReceivedSingletons(st: State, st2: State, t: TypeId, j: InstanceId)
  {
    && j < |st2.objects|
    && (t in st.deps ==>
          && |st2.objects[j].args| == |st.deps[t]|
          && forall q :: 0 <= q < |st.deps[t]| && IsSingleton(st, st.deps[t][q]) ==>
               ResolverOf(st2, st.deps[t][q]) == Some(SingletonDone(st2.objects[j].args[q])))
  }

  /** Every built singleton of `st` is still built, with the same instance, in
      `st2`. */
  ghost predicate DoneKept(st: State, st2: State)
  {
    forall x :: x in st.resolvers && st.resolvers[x].SingletonDone? ==>
      x in st2.resolvers && st2.resolvers[x] == st.resolvers[x]
  }

  /** Every singleton of `st`, pending or built, is still one in `st2`. */
  ghost predicate SingletonsKept(st: State, st2: State)
  {
    forall x :: IsSingleton(st, x) ==> IsSingleton(st2, x)
  }

  /** What a resolution may do to the resolver of `u`: a cached resolver stays
      cached, and only a pending singleton changes, into a built one; a new
      entry has the shape `register` gives it; a built singleton is never
      constructed again, and a pending one at most once, as the instance its
      cached resolver returns, built from its list. */
  ghost predicate EntryKept(st: State, st2: State, u: TypeId)
  {
    && (u in st.resolvers ==> u in st2.resolvers)
    && (u in st.resolvers && !st.resolvers[u].SingletonPending? ==> st2.resolvers[u] == st.resolvers[u])
    && (u !in st.resolvers && u in st2.resolvers ==> st2.resolvers[u] == MakeResolver(st.deps, u))
    && (u in st.resolvers && st.resolvers[u].SingletonDone? ==> NoneBuilt(st, st2, u))
    && (u in st.resolvers && st.resolvers[u].SingletonPending? ==>
          (st2.resolvers[u] == SingletonPending && NoneBuilt(st, st2, u))
          || (&& st2.resolvers[u].SingletonDone?
              && OnlyBuilt(st, st2, u, st2.resolvers[u].inst)
              && |st.objects| <= st2.resolvers[u].inst
              && ReceivedSingletons(st, st2, u, st2.resolvers[u].inst)))
  }

  /** Every resolver is kept in the sense of `EntryKept`. */
  ghost predicate Kept(st: State, st2: State)
  {
    forall u :: EntryKept(st, st2, u)
  }

  lemma KeptParts(st: State, st2: State)
    requires Kept(st, st2)
    ensures DoneKept(st, st2) && SingletonsKept(st, st2)
  {
    forall x | x in st.resolvers && st.resolvers[x].SingletonDone?
      ensures x in st2.resolvers && st2.resolvers[x] == st.resolvers[x]
    {
      assert EntryKept(st, st2, x);
    }
    forall x | IsSingleton(st, x)
      ensures IsSingleton(st2, x)
    {
      assert EntryKept(st, st2, x);
    }
  }

  lemma EntryKeptTrans(st1: State, st2: State, st3: State, u: TypeId)
    requires EntryKept(st1, st2, u) && EntryKept(st2, st3, u)
    requires SingletonsKept(st1, st2) && DoneKept(st2, st3)
    requires st1.deps == st2.deps && st1.objects <= st2.objects <= st3.objects
    ensures EntryKept(st1, st3, u)
  {
    if u in st1.resolvers && st1.resolvers[u].SingletonDone? {
      NoneBuiltTrans(st1, st2, st3, u);
    } else if u in st1.resolvers && st1.resolvers[u].SingletonPending? {
      if st2.resolvers[u] == SingletonPending {
        if st3.resolvers[u] == SingletonPending {
          NoneBuiltTrans(st1, st2, st3, u);
        } else {
          OnlyBuiltAfter(st1, st2, st3, u, st3.resolvers[u].inst);
          ReceivedEarlier(st1, st2, st3, u, st3.resolvers[u].inst);
        }
      } else {
        OnlyBuiltBefore(st1, st2, st3, u, st2.resolvers[u].inst);
        ReceivedLater(st1, st2, st3, u, st2.resolvers[u].inst);
      }
    }
  }

  /** A singleton built from its list stays so described while later
      resolutions keep built singletons. */
  lemma ReceivedLater(st1: State, st2: State, st3: State, u: TypeId, j: InstanceId)
    requires ReceivedSingletons(st1, st2, u, j) && DoneKept(st2, st3)
    requires st2.objects <= st3.objects
    ensures ReceivedSingletons(st1, st3, u, j)
  {
    assert st3.objects[j] == st2.objects[j];
  }

  /** A singleton built from its list after `st2` is also described relative
      to an earlier `st1` whose singletons all survive to `st2`. */
  lemma ReceivedEarlier(st1: State, st2: State, st3: State, u: TypeId, j: InstanceId)
    requires ReceivedSingletons(st2, st3, u, j) && SingletonsKept(st1, st2)
    requires st1.deps == st2.deps
    ensures ReceivedSingletons(st1, st3, u, j)
  {
  }

  lemma NoneBuiltTrans(st1: State, st2: State, st3: State, u: TypeId)
    requires NoneBuilt(st1, st2, u) && NoneBuilt(st2, st3, u)
    requires st1.objects <= st2.objects <= st3.objects
    ensures NoneBuilt(st1, st3, u)
  {
    forall k | |st1.objects| <= k < |st2.objects|
      ensures st3.objects[k].ty != u
    {
      assert st3.objects[k] == st2.objects[k];
    }
  }

  lemma OnlyBuiltAfter(st1: State, st2: State, st3: State, u: TypeId, i: InstanceId)
    requires NoneBuilt(st1, st2, u) && OnlyBuilt(st2, st3, u, i)
    requires st1.objects <= st2.objects <= st3.objects
    ensures OnlyBuilt(st1, st3, u, i)
  {
    forall k | |st1.objects| <= k < |st2.objects|
      ensures st3.objects[k].ty != u
    {
      assert st3.objects[k] == st2.objects[k];
    }
  }

  lemma OnlyBuiltBefore(st1: State, st2: State, st3: State, u: TypeId, i: InstanceId)
    requires OnlyBuilt(st1, st2, u, i) && NoneBuilt(st2, st3, u)
    requires st1.objects <= st2.objects <= st3.objects
    ensures OnlyBuilt(st1, st3, u, i)
  {
    forall k | |st1.objects| <= k < |st2.objects| && st3.objects[k].ty == u
      ensures k == i
    {
      assert st3.objects[k] == st2.objects[k];
    }
  }

  lemma KeptTrans(st1: State, st2: State, st3: State)
    requires Kept(st1, st2) && Kept(st2, st3)
    requires st1.deps == st2.deps && st1.objects <= st2.objects <= st3.objects
    ensures Kept(st1, st3)
  {
    KeptParts(st1, st2);
    KeptParts(st2, st3);
    forall u
      ensures EntryKept(st1, st3, u)
    {
      EntryKeptTrans(st1, st2, st3, u);
    }
  }

  /** The private `resolver(Type)`: the shape of a fresh resolver is chosen by
      whether a list is attached at the moment it is created. */
  function MakeResolver(deps: map<TypeId, seq<TypeId>>, t: TypeId): (r: Resolver)
    ensures r == WithDeps <==> t in deps
    ensures r == NoDeps <==> t !in deps
  {
    if t in deps then WithDeps else NoDeps
  }

  /** `register(Type)`: caches a fresh resolver only when none is cached, and
      returns the cached one. */
  function Register(st: State, t: TypeId): (g: Registered)
    ensures t in g.st.resolvers && g.resolver == g.st.resolvers[t]
    ensures t in st.resolvers ==> g.st == st
    ensures t !in st.resolvers ==> g.resolver == MakeResolver(st.deps, t)
    ensures g.st.resolvers.Keys == st.resolvers.Keys + {t}
    ensures forall u :: u in st.resolvers ==> g.st.resolvers[u] == st.resolvers[u]
    ensures g.st.deps == st.deps && g.st.objects == st.objects
    ensures Valid(st) ==> Valid(g.st)
  {
    if t in st.resolvers then Registered(st, st.resolvers[t])
    else
      var r := MakeResolver(st.deps, t);
      Registered(st.(resolvers := st.resolvers[t := r]), r)
  }

  lemma RegisterKept(st: State, t: TypeId)
    ensures Kept(st, Register(st, t).st)
  {
    var g := Register(st, t);
    forall u
      ensures EntryKept(st, g.st, u)
    {
    }
  }

  /** `singleton(Type)`: unconditionally installs the self-replacing resolver. */
  function Singleton(st: State, t: TypeId): (st2: State)
    ensures ResolverOf(st2, t) == Some(SingletonPending)
    ensures forall u :: u != t ==> ResolverOf(st2, u) == ResolverOf(st, u)
    ensures st2.deps == st.deps && st2.objects == st.objects
    ensures Valid(st) ==> Valid(st2)
  {
    st.(resolvers := st.resolvers[t := SingletonPending])
  }

  /** Where `inject` stores its list: on the descriptor's function value when a
      descriptor is given, otherwise on the target itself. */
  function AttachKey(target: TypeId, descriptor: Option<Descriptor>): TypeId
  {
    match descriptor
    case Some(d) => d.value
    case None => target
  }

  /** `inject(...types)(target, key, descriptor)`: attaches exactly `types`,
      replacing any earlier list on the same key; every other list stays. */
  function Inject(st: State, types: seq<TypeId>, target: TypeId, descriptor: Option<Descriptor>): (st2: State)
    ensures ListOf(st2.deps, AttachKey(target, descriptor)) == Some(types)
    ensures forall u :: u != AttachKey(target, descriptor) ==> ListOf(st2.deps, u) == ListOf(st.deps, u)
    ensures descriptor.Some? && descriptor.value.value != target ==>
              ListOf(st2.deps, target) == ListOf(st.deps, target)
    ensures st2.resolvers == st.resolvers && st2.objects == st.objects
    ensures Valid(st) ==> Valid(st2)
  {
    match descriptor
    case Some(d) => st.(deps := st.deps[d.value := types])
    case None => st.(deps := st.deps[target := types])
  }

  /** `new Type(...args)`: a fresh object at the end of the heap. */
  function Construct(st: State, t: TypeId, args: seq<InstanceId>): (s: Step)
    ensures s.inst == |st.objects| && s.st.objects == st.objects + [Obj(t, args)]
    ensures s.st.deps == st.deps && s.st.resolvers == st.resolvers
  {
    Step(st.(objects := st.objects + [Obj(t, args)]), |st.objects|)
  }

  /** `insts` are existing objects whose types are, position by position, `ts`. */
  ghost predicate Typed(objects: seq<Obj>, insts: seq<InstanceId>, ts: seq<TypeId>)
  {
    && |insts| == |ts|
    && forall k :: 0 <= k < |ts| ==> insts[k] < |objects| && objects[insts[k]].ty == ts[k]
  }

  lemma TypedCons(h: Step, rest: Steps, ts: seq<TypeId>)
    requires ts != []
    requires h.inst < |h.st.objects| && h.st.objects[h.inst].ty == ts[0]
    requires h.st.objects <= rest.st.objects
    requires Typed(rest.st.objects, rest.insts, ts[1..])
    ensures Typed(rest.st.objects, [h.inst] + rest.insts, ts)
  {
    var insts := [h.inst] + rest.insts;
    forall k | 0 <= k < |ts|
      ensures insts[k] < |rest.st.objects| && rest.st.objects[insts[k]].ty == ts[k]
    {
      if k == 0 {
        assert rest.st.objects[h.inst] == h.st.objects[h.inst];
      } else {
        assert insts[k] == rest.insts[k - 1] && ts[k] == ts[1..][k - 1];
      }
    }
  }

  lemma TypedExtend(objects: seq<Obj>, objects2: seq<Obj>, insts: seq<InstanceId>, ts: seq<TypeId>)
    requires objects <= objects2 && Typed(objects, insts, ts)
    ensures Typed(objects2, insts, ts)
  {
    forall k | 0 <= k < |ts|
      ensures objects2[insts[k]] == objects[insts[k]]
    {
    }
  }

  /** Constructing from existing instances keeps the state reachable. */
  lemma ConstructKeeps(st: State, t: TypeId, args: seq<InstanceId>, rank: TypeId -> nat)
    requires Valid(st)
    requires forall j :: 0 <= j < |args| ==> args[j] < |st.objects|
    ensures Valid(Construct(st, t, args).st)
    ensures Extends(st, Construct(st, t, args).st, rank(t) + 1, rank)
    ensures forall u :: u != t || !IsSingleton(st, u) ==> EntryKept(st, Construct(st, t, args).st, u)
  {
    var s := Construct(st, t, args);
    forall k, j | 0 <= k < |s.st.objects| && 0 <= j < |s.st.objects[k].args|
      ensures s.st.objects[k].args[j] < k
    {
      if k < |st.objects| {
        assert s.st.objects[k] == st.objects[k];
      }
    }
  }

  /** Resolves each type of `ts` through `invoke`, left to right, threading the
      state, and collects the instances in list order. */
  function ResolveArgs(st: State, ts: seq<TypeId>, below: nat, rank: TypeId -> nat): (a: Steps)
    requires Valid(st) && Acyclic(st.deps, rank)
    requires forall k :: 0 <= k < |ts| ==> rank(ts[k]) < below
    ensures Valid(a.st) && Extends(st, a.st, below, rank)
    ensures Typed(a.st.objects, a.insts, ts)
    ensures Kept(st, a.st)
    ensures forall k :: 0 <= k < |ts| && IsSingleton(st, ts[k]) ==>
              ResolverOf(a.st, ts[k]) == Some(SingletonDone(a.insts[k]))
    decreases below, 0, |ts|
  {
    if ts == [] then
      assert Kept(st, st) by {
        forall u
          ensures EntryKept(st, st, u)
        {
        }
      }
      Steps(st, [])
    else
      var h := Resolve(st, ts[0], rank);
      var rest := ResolveArgs(h.st, ts[1..], below, rank);
      ExtendsTrans(st, h.st, rest.st, rank(ts[0]) + 1, below, below, rank);
      TypedCons(h, rest, ts);
      KeptTrans(st, h.st, rest.st);
      SingletonArgsCons(st, h, rest, ts);
      Steps(rest.st, [h.inst] + rest.insts)
  }

  /** A singleton entry of the list receives the singleton's instance:
      the head's from its own resolution, the tail's from the rest. */
  lemma SingletonArgsCons(st: State, h: Step, rest: Steps, ts: seq<TypeId>)
    requires ts != []
    requires Kept(st, h.st) && Kept(h.st, rest.st)
    requires IsSingleton(st, ts[0]) ==> ResolverOf(h.st, ts[0]) == Some(SingletonDone(h.inst))
    requires |rest.insts| == |ts| - 1
    requires forall k :: 0 <= k < |ts| - 1 && IsSingleton(h.st, ts[1..][k]) ==>
               ResolverOf(rest.st, ts[1..][k]) == Some(SingletonDone(rest.insts[k]))
    ensures forall k :: 0 <= k < |ts| && IsSingleton(st, ts[k]) ==>
              ResolverOf(rest.st, ts[k]) == Some(SingletonDone(([h.inst] + rest.insts)[k]))
  {
    forall k | 0 <= k < |ts| && IsSingleton(st, ts[k])
      ensures ResolverOf(rest.st, ts[k]) == Some(SingletonDone(([h.inst] + rest.insts)[k]))
    {
      if k == 0 {
        assert EntryKept(h.st, rest.st, ts[0]);
      } else {
        assert EntryKept(st, h.st, ts[k]);
        assert ts[1..][k - 1] == ts[k];
      }
    }
  }

  /** The body of a with-deps resolver: reads the list attached to `t` now,
      resolves it, and constructs `t` with the results as positional
      arguments. */
  function WithDepsRun(st: State, t: TypeId, rank: TypeId -> nat): (s: Step)
    requires Valid(st) && Acyclic(st.deps, rank)
    requires t in st.deps
    ensures Valid(s.st) && Extends(st, s.st, rank(t) + 1, rank)
    ensures s.inst == |s.st.objects| - 1 && s.inst >= |st.objects|
    ensures s.st.objects[s.inst].ty == t
    ensures Typed(s.st.objects, s.st.objects[s.inst].args, st.deps[t])
    ensures forall k :: |st.objects| <= k < s.inst ==> rank(s.st.objects[k].ty) < rank(t)
    ensures ResolverOf(s.st, t) == ResolverOf(st, t)
    ensures forall u :: u != t ==> EntryKept(st, s.st, u)
    ensures forall k :: 0 <= k < |st.deps[t]| && IsSingleton(st, st.deps[t][k]) ==>
              ResolverOf(s.st, st.deps[t][k]) == Some(SingletonDone(s.st.objects[s.inst].args[k]))
    decreases rank(t), 1
  {
    var a := ResolveArgs(st, st.deps[t], rank(t), rank);
    assert ResolverOf(a.st, t) == ResolverOf(st, t);
    var s := Construct(a.st, t, a.insts);
    ConstructKeeps(a.st, t, a.insts, rank);
    ExtendsTrans(st, a.st, s.st, rank(t), rank(t) + 1, rank(t) + 1, rank);
    TypedExtend(a.st.objects, s.st.objects, a.insts, st.deps[t]);
    KeptParts(st, a.st);
    assert DoneKept(a.st, s.st);
    forall u | u != t
      ensures EntryKept(st, s.st, u)
    {
      EntryKeptTrans(st, a.st, s.st, u);
    }
    s
  }

  /** `resolver(Type)()`: calls a fresh resolver that is not cached. Its
      shape follows whether a list is attached now: with a list the type is
      built from the instances its list resolves to, without one from no
      arguments. */
  function RunFresh(st: State, t: TypeId, rank: TypeId -> nat): (b: Step)
    requires Valid(st) && Acyclic(st.deps, rank)
    ensures t in st.deps ==>
              var a := ResolveArgs(st, st.deps[t], rank(t), rank);
              b.st.objects == a.st.objects + [Obj(t, a.insts)]
    ensures t !in st.deps ==> b.st.objects == st.objects + [Obj(t, [])]
    ensures Valid(b.st) && Extends(st, b.st, rank(t) + 1, rank)
    ensures b.inst == |b.st.objects| - 1 && b.inst >= |st.objects| && b.st.objects[b.inst].ty == t
    ensures forall k :: |st.objects| <= k < b.inst ==> b.st.objects[k].ty != t
    ensures ResolverOf(b.st, t) == ResolverOf(st, t)
    ensures forall u :: u != t ==> EntryKept(st, b.st, u)
    ensures ReceivedSingletons(st, b.st, t, b.inst)
    decreases rank(t), 2
  {
    ConstructKeeps(st, t, [], rank);
    if t in st.deps then WithDepsRun(st, t, rank) else Construct(st, t, [])
  }

  /** The first call of a pending singleton resolver: builds the instance
      through a fresh resolver and caches the constant resolver returning
      it. */
  function BuildSingleton(st: State, t: TypeId, rank: TypeId -> nat): (s: Step)
    requires Valid(st) && Acyclic(st.deps, rank)
    requires ResolverOf(st, t) == Some(SingletonPending)
    ensures Kept(st, s.st)
    ensures ReceivedSingletons(st, s.st, t, s.inst)
    ensures t in st.deps ==>
              var a := ResolveArgs(st, st.deps[t], rank(t), rank);
              s.st.objects == a.st.objects + [Obj(t, a.insts)]
    ensures t !in st.deps ==> s.st.objects == st.objects + [Obj(t, [])]
    ensures Valid(s.st) && Extends(st, s.st, rank(t) + 1, rank)
    ensures s.inst == |s.st.objects| - 1 && s.inst >= |st.objects| && s.st.objects[s.inst].ty == t
    ensures forall k :: |st.objects| <= k < |s.st.objects| && s.st.objects[k].ty == t ==> k == s.inst
    ensures ResolverOf(s.st, t) == Some(SingletonDone(s.inst))
    decreases rank(t), 3
  {
    var b := RunFresh(st, t, rank);
    var s := Step(b.st.(resolvers := b.st.resolvers[t := SingletonDone(b.inst)]), b.inst);
    CacheKept(st, b, s, t, rank);
    s
  }

  /** Caching the built singleton keeps the engine valid and every resolver
      in the sense of `EntryKept`. */
  lemma CacheKept(st: State, b: Step, s: Step, t: TypeId, rank: TypeId -> nat)
    requires ResolverOf(st, t) == Some(SingletonPending) && ResolverOf(b.st, t) == ResolverOf(st, t)
    requires forall u :: u != t ==> EntryKept(st, b.st, u)
    requires st.objects <= b.st.objects && |st.objects| <= b.inst == |b.st.objects| - 1
    requires Valid(b.st) && Extends(st, b.st, rank(t) + 1, rank) && b.st.objects[b.inst].ty == t
    requires forall k :: |st.objects| <= k < b.inst ==> b.st.objects[k].ty != t
    requires ReceivedSingletons(st, b.st, t, b.inst)
    requires t in st.deps ==> forall q :: 0 <= q < |st.deps[t]| ==> st.deps[t][q] != t
    requires s == Step(b.st.(resolvers := b.st.resolvers[t := SingletonDone(b.inst)]), b.inst)
    ensures Kept(st, s.st)
    ensures ReceivedSingletons(st, s.st, t, s.inst)
    ensures Valid(s.st) && Extends(st, s.st, rank(t) + 1, rank)
    ensures OnlyBuilt(st, s.st, t, s.inst)
  {
    assert DoneKept(b.st, s.st);
    forall u
      ensures EntryKept(st, s.st, u)
    {
      if u != t {
        assert EntryKept(st, b.st, u);
        if u in st.resolvers && st.resolvers[u].SingletonPending? && b.st.resolvers[u].SingletonDone? {
          ReceivedLater(st, b.st, s.st, u, b.st.resolvers[u].inst);
        }
      }
    }
  }

  /** Calls resolver `r` on behalf of type `t`. */
  function Call(st: State, t: TypeId, r: Resolver, rank: TypeId -> nat): (s: Step)
    requires Valid(st) && Acyclic(st.deps, rank)
    requires r.WithDeps? ==> t in st.deps
    requires ResolverOf(st, t) == Some(r)
    ensures Valid(s.st) && Extends(st, s.st, rank(t) + 1, rank)
    ensures Kept(st, s.st)
    ensures s.inst < |s.st.objects| && s.st.objects[s.inst].ty == t
    ensures r.SingletonDone? ==> s == Step(st, r.inst)
    ensures !r.SingletonDone? ==> s.inst == |s.st.objects| - 1 && s.inst >= |st.objects|
    ensures !r.SingletonDone? ==>
              forall k :: |st.objects| <= k < |s.st.objects| && s.st.objects[k].ty == t ==> k == s.inst
    ensures r.SingletonPending? ==> ResolverOf(s.st, t) == Some(SingletonDone(s.inst))
    ensures !r.SingletonPending? ==> ResolverOf(s.st, t) == ResolverOf(st, t)
    decreases rank(t), 4
  {
    match r
    case NoDeps =>
      ConstructKeeps(st, t, [], rank);
      Construct(st, t, [])
    case WithDeps => WithDepsRun(st, t, rank)
    case SingletonPending => BuildSingleton(st, t, rank)
    case SingletonDone(i) =>
      assert Kept(st, st) by {
        forall u
          ensures EntryKept(st, st, u)
        {
        }
      }
      Step(st, i)
  }

  /** `register(Type)()`: the resolution every recursive `invoke` performs. */
  function Resolve(st: State, t: TypeId, rank: TypeId -> nat): (s: Step)
    requires Valid(st) && Acyclic(st.deps, rank)
    ensures Valid(s.st) && Extends(st, s.st, rank(t) + 1, rank)
    ensures t in s.st.resolvers
    ensures s.inst < |s.st.objects| && s.st.objects[s.inst].ty == t
    ensures Kept(st, s.st)
    ensures IsSingleton(st, t) ==> ResolverOf(s.st, t) == Some(SingletonDone(s.inst))
    decreases rank(t), 5
  {
    var g := Register(st, t);
    RegisterKept(st, t);
    var s := Call(g.st, t, g.resolver, rank);
    KeptTrans(st, g.st, s.st);
    s
  }

  /** The dependency table after `invoke(Type, ...overrides)` applies its
      overrides. */
  function Overridden(deps: map<TypeId, seq<TypeId>>, t: TypeId, overrides: seq<TypeId>): map<TypeId, seq<TypeId>>
  {
    if |overrides| > 0 then deps[t := overrides] else deps
  }

  /** `invoke(Type, ...overrides)`: a non-empty override list is attached to
      the type as its new list, then the registered resolver is called. */
  function Invoke(st: State, t: TypeId, overrides: seq<TypeId>, rank: TypeId -> nat): (s: Step)
    requires Valid(st) && Acyclic(Overridden(st.deps, t, overrides), rank)
    ensures |overrides| > 0 ==> ListOf(s.st.deps, t) == Some(overrides)
    ensures forall u :: u != t ==> ListOf(s.st.deps, u) == ListOf(st.deps, u)
    ensures |overrides| == 0 ==> s.st.deps == st.deps
    ensures s.st.deps == Overridden(st.deps, t, overrides)
    ensures st.objects <= s.st.objects
    ensures st.resolvers.Keys + {t} <= s.st.resolvers.Keys
    ensures Valid(s.st)
    ensures s.inst < |s.st.objects| && s.st.objects[s.inst].ty == t
  {
    var st1 := if |overrides| > 0 then Inject(st, overrides, t, None) else st;
    assert st1.deps == Overridden(st.deps, t, overrides);
    Resolve(st1, t, rank)
  }
}

=== FILE: facts.dfy ===
/** Properties of the engine that relate several calls: argument order,
    resolver caching, the shape fixed at creation, overrides, and the
    singleton's construct-once behaviour. */
module EngineFacts {
  import opened Engine

  /** Process start is a reachable state. */
  lemma InitValid()
    ensures Valid(Init)
    ensures Init.deps == map[] && Init.resolvers == map[] && Init.objects == []
  {
  }

  /** A recursive resolution is `invoke` with no extra arguments. */
  lemma InvokeWithoutOverrides(st: State, t: TypeId, rank: TypeId -> nat)
    requires Valid(st) && Acyclic(st.deps, rank)
    ensures Invoke(st, t, [], rank) == Resolve(st, t, rank)
    ensures Invoke(st, t, [], rank).st.deps == st.deps
  {
  }

  /** `register` is idempotent: a second call changes nothing and returns the
      same resolver. */
  lemma RegisterIdempotent(st: State, t: TypeId)
    ensures Register(Register(st, t).st, t) == Register(st, t)
  {
  }

  /** The resolver's shape is fixed when it is cached: attaching a list later
      does not change what `register` returns. */
  lemma ShapeFixedAtCreation(st: State, t: TypeId, types: seq<TypeId>, target: TypeId, descriptor: Option<Descriptor>)
    requires t in st.resolvers
    ensures Register(Inject(st, types, target, descriptor), t).resolver == st.resolvers[t]
  {
  }

  /** Attaching twice to the same place keeps only the second list. */
  lemma InjectLastWriteWins(st: State, first: seq<TypeId>, second: seq<TypeId>, target: TypeId, descriptor: Option<Descriptor>)
    ensures Inject(Inject(st, first, target, descriptor), second, target, descriptor)
         == Inject(st, second, target, descriptor)
  {
  }

  /** One step of `ResolveArgs`: the head is resolved first, then the tail. */
  lemma ResolveArgsCons(st: State, ts: seq<TypeId>, below: nat, rank: TypeId -> nat)
    requires Valid(st) && Acyclic(st.deps, rank)
    requires forall k :: 0 <= k < |ts| ==> rank(ts[k]) < below
    requires ts != []
    ensures var h := Resolve(st, ts[0], rank);
            var rest := ResolveArgs(h.st, ts[1..], below, rank);
            ResolveArgs(st, ts, below, rank) == Steps(rest.st, [h.inst] + rest.insts)
  {
  }

  lemma PrefixTail(ts: seq<TypeId>, k: nat)
    requires 0 < k < |ts|
    ensures ts[..k] != [] && ts[..k][0] == ts[0] && ts[..k][1..] == ts[1..][..k - 1]
    ensures ts[1..][k - 1] == ts[k]
  {
  }

  lemma ConsIndex(x: InstanceId, u: seq<InstanceId>, k: nat)
    requires 0 < k <= |u|
    ensures ([x] + u)[k] == u[k - 1]
  {
  }

  /** Resolving the first k entries starts with the head, then the next k - 1. */
  lemma PrefixState(st: State, ts: seq<TypeId>, k: nat, below: nat, rank: TypeId -> nat)
    requires Valid(st) && Acyclic(st.deps, rank)
    requires forall j :: 0 <= j < |ts| ==> rank(ts[j]) < below
    requires 0 < k < |ts|
    ensures ResolveArgs(st, ts[..k], below, rank).st
         == ResolveArgs(Resolve(st, ts[0], rank).st, ts[1..][..k - 1], below, rank).st
  {
    PrefixTail(ts, k);
    ResolveArgsCons(st, ts[..k], below, rank);
  }

  /** The k-th argument is `invoke` of the k-th listed type, performed in the
      state left by resolving the entries before it: resolution is positional
      and runs left to right. */
  lemma {:induction false} ArgsResolvedLeftToRight(st: State, ts: seq<TypeId>, k: nat, below: nat, rank: TypeId -> nat)
    requires Valid(st) && Acyclic(st.deps, rank)
    requires forall j :: 0 <= j < |ts| ==> rank(ts[j]) < below
    requires k < |ts|
    ensures var p := ResolveArgs(st, ts[..k], below, rank);
            ResolveArgs(st, ts, below, rank).insts[k] == Resolve(p.st, ts[k], rank).inst
    decreases k
  {
    var h := Resolve(st, ts[0], rank);
    var rest := ResolveArgs(h.st, ts[1..], below, rank);
    ResolveArgsCons(st, ts, below, rank);
    if k == 0 {
      assert ts[..k] == [];
    } else {
      ConsIndex(h.inst, rest.insts, k);
      ArgsResolvedLeftToRight(h.st, ts[1..], k - 1, below, rank);
      PrefixTail(ts, k);
      PrefixState(st, ts, k, below, rank);
    }
  }

  /** Resolving a type whose resolver is (or is about to be cached as) a
      with-deps one resolves its current list and then constructs it. */
  lemma WithDepsUnfold(st: State, t: TypeId, rank: TypeId -> nat)
    requires Valid(st) && Acyclic(st.deps, rank)
    requires t in st.deps
    requires ResolverOf(st, t) == None || ResolverOf(st, t) == Some(WithDeps)
    ensures var g := Register(st, t);
            var a := ResolveArgs(g.st, st.deps[t], rank(t), rank);
            Resolve(st, t, rank) == Construct(a.st, t, a.insts)
  {
    var g := Register(st, t);
    assert g.resolver == WithDeps && g.st.deps == st.deps;
    assert Resolve(st, t, rank) == WithDepsRun(g.st, t, rank);
  }

  /** A type whose list is attached and whose resolver reads it (a with-deps
      one, cached or about to be, or a singleton's first call) is constructed
      last, with exactly the instances `invoke` yields for its current list,
      in list order. */
  lemma WithDepsConstruction(st: State, t: TypeId, rank: TypeId -> nat)
    requires Valid(st) && Acyclic(st.deps, rank)
    requires t in st.deps
    requires ResolverOf(st, t) in {None, Some(WithDeps), Some(SingletonPending)}
    ensures var g := Register(st, t);
            var s := Resolve(st, t, rank);
            var a := ResolveArgs(g.st, st.deps[t], rank(t), rank);
            && s.st.objects == a.st.objects + [Obj(t, a.insts)]
            && s.inst == |a.st.objects|
  {
    if ResolverOf(st, t) == Some(SingletonPending) {
      PendingWithDeps(st, t, rank, Resolve(st, t, rank));
    } else {
      WithDepsUnfold(st, t, rank);
    }
  }

  /** The singleton case of `WithDepsConstruction`. */
  lemma PendingWithDeps(st: State, t: TypeId, rank: TypeId -> nat, s: Step)
    requires Valid(st) && Acyclic(st.deps, rank)
    requires t in st.deps && ResolverOf(st, t) == Some(SingletonPending)
    requires s == Resolve(st, t, rank)
    ensures Register(st, t).st == st
    ensures var a := ResolveArgs(st, st.deps[t], rank(t), rank);
            && s.st.objects == a.st.objects + [Obj(t, a.insts)]
            && s.inst == |a.st.objects|
  {
    assert Register(st, t) == Registered(st, SingletonPending);
    assert s == BuildSingleton(st, t, rank);
  }

  /** Each argument of that construction is `invoke` of the listed type at its
      position, performed in the state the entries before it left: the list
      is resolved left to right. */
  lemma WithDepsPositional(st: State, t: TypeId, rank: TypeId -> nat)
    requires Valid(st) && Acyclic(st.deps, rank)
    requires t in st.deps
    ensures var g := Register(st, t);
            var a := ResolveArgs(g.st, st.deps[t], rank(t), rank);
            forall k :: 0 <= k < |st.deps[t]| ==>
              a.insts[k] == Resolve(ResolveArgs(g.st, st.deps[t][..k], rank(t), rank).st, st.deps[t][k], rank).inst
  {
    var g := Register(st, t);
    var ts := st.deps[t];
    forall k | 0 <= k < |ts|
      ensures ResolveArgs(g.st, ts, rank(t), rank).insts[k]
           == Resolve(ResolveArgs(g.st, ts[..k], rank(t), rank).st, ts[k], rank).inst
    {
      ArgsResolvedLeftToRight(g.st, ts, k, rank(t), rank);
    }
  }

  /** A type with no cached resolver gets one whose shape is chosen by
      whether a list is attached at that moment, and that shape stays
      cached: with a list the new instance receives one existing instance
      per listed type, in order; without one it receives nothing. */
  lemma ResolverShapeAtCreation(st: State, t: TypeId, rank: TypeId -> nat)
    requires Valid(st) && Acyclic(st.deps, rank)
    requires t !in st.resolvers
    ensures var s := Resolve(st, t, rank);
            && ResolverOf(s.st, t) == Some(if t in st.deps then WithDeps else NoDeps)
            && (t in st.deps ==> Typed(s.st.objects, s.st.objects[s.inst].args, st.deps[t]))
            && (t !in st.deps ==> s.st.objects[s.inst].args == [])
  {
    var g := Register(st, t);
    if t in st.deps {
      assert Resolve(st, t, rank) == Call(g.st, t, WithDeps, rank) == WithDepsRun(g.st, t, rank);
    } else {
      NoDepsConstruction(st, t, rank);
    }
  }

  /** A type without an attached list, or whose no-deps resolver is already
      cached, is constructed with zero arguments and nothing else is built. */
  lemma NoDepsConstruction(st: State, t: TypeId, rank: TypeId -> nat)
    requires Valid(st) && Acyclic(st.deps, rank)
    requires ResolverOf(st, t) == Some(NoDeps) || (ResolverOf(st, t) == None && t !in st.deps)
    ensures var s := Resolve(st, t, rank);
            && s.inst == |st.objects|
            && s.st.objects == st.objects + [Obj(t, [])]
            && s.st.deps == st.deps
            && s.st.resolvers == st.resolvers[t := NoDeps]
  {
  }

  /** A cached no-deps resolver ignores lists attached after it was cached,
      including the overrides of `invoke`, although the override itself still
      persists as the type's list. */
  lemma NoDepsIgnoresOverrides(st: State, t: TypeId, overrides: seq<TypeId>, rank: TypeId -> nat)
    requires Valid(st) && Acyclic(Overridden(st.deps, t, overrides), rank)
    requires ResolverOf(st, t) == Some(NoDeps)
    ensures var s := Invoke(st, t, overrides, rank);
            && s.st.objects == st.objects + [Obj(t, [])]
            && s.inst == |st.objects|
            && s.st.deps == Overridden(st.deps, t, overrides)
  {
    var st1 := if |overrides| > 0 then Inject(st, overrides, t, None) else st;
    assert st1.deps == Overridden(st.deps, t, overrides);
    NoDepsConstruction(st1, t, rank);
  }

  /** Non-empty overrides take effect whenever the type's resolver still
      consults the list: the new instance is built last, from exactly the
      instances `invoke` yields for the overrides, one per override, of that
      override's type, in order. */
  lemma OverridesApplied(st: State, t: TypeId, overrides: seq<TypeId>, rank: TypeId -> nat)
    requires Valid(st) && Acyclic(Overridden(st.deps, t, overrides), rank)
    requires |overrides| > 0
    requires ResolverOf(st, t) in {None, Some(WithDeps), Some(SingletonPending)}
    ensures var s := Invoke(st, t, overrides, rank);
            var g := Register(Inject(st, overrides, t, None), t);
            var a := ResolveArgs(g.st, overrides, rank(t), rank);
            && s.st.objects == a.st.objects + [Obj(t, a.insts)]
            && s.inst == |a.st.objects| >= |st.objects|
            && Typed(s.st.objects, s.st.objects[s.inst].args, overrides)
  {
    var st1 := Inject(st, overrides, t, None);
    assert st1.deps == st.deps[t := overrides];
    assert Invoke(st, t, overrides, rank) == Resolve(st1, t, rank);
    WithDepsConstruction(st1, t, rank);
    var g := Register(st1, t);
    var a := ResolveArgs(g.st, overrides, rank(t), rank);
    TypedExtend(a.st.objects, Resolve(st1, t, rank).st.objects, a.insts, overrides);
  }

  /** The first call of a pending singleton builds one instance, freshly, and
      caches the constant resolver returning it; no other instance of the type
      is constructed on the way. */
  lemma SingletonFirstCall(st: State, t: TypeId, rank: TypeId -> nat)
    requires Valid(st) && Acyclic(st.deps, rank)
    requires ResolverOf(st, t) == Some(SingletonPending)
    ensures var s := Resolve(st, t, rank);
            && ResolverOf(s.st, t) == Some(SingletonDone(s.inst))
            && s.inst == |s.st.objects| - 1 && s.inst >= |st.objects|
            && forall k :: |st.objects| <= k < |s.st.objects| && s.st.objects[k].ty == t ==> k == s.inst
  {
  }

  /** Once built, a singleton is returned as is: no construction, no change to
      the engine, and any override list is only recorded. */
  lemma SingletonLaterCalls(st: State, t: TypeId, i: InstanceId, overrides: seq<TypeId>, rank: TypeId -> nat)
    requires Valid(st) && Acyclic(Overridden(st.deps, t, overrides), rank)
    requires ResolverOf(st, t) == Some(SingletonDone(i))
    ensures var s := Invoke(st, t, overrides, rank);
            && s.inst == i
            && s.st.objects == st.objects
            && s.st.resolvers == st.resolvers
            && s.st.deps == Overridden(st.deps, t, overrides)
  {
    var st1 := if |overrides| > 0 then Inject(st, overrides, t, None) else st;
    assert Invoke(st, t, overrides, rank) == Call(st1, t, SingletonDone(i), rank);
  }

  /** A built singleton stays built across every `invoke`, of any type and
      with any overrides: its cached resolver still returns the same
      instance, no further instance of it is constructed, and invoking the
      singleton itself returns that instance. */
  lemma SingletonStaysBuilt(st: State, s: TypeId, i: InstanceId, u: TypeId, overrides: seq<TypeId>, rank: TypeId -> nat)
    requires Valid(st) && Acyclic(Overridden(st.deps, u, overrides), rank)
    requires ResolverOf(st, s) == Some(SingletonDone(i))
    ensures var r := Invoke(st, u, overrides, rank);
            && ResolverOf(r.st, s) == Some(SingletonDone(i))
            && NoneBuilt(st, r.st, s)
            && (u == s ==> r.inst == i)
  {
    var st1 := if |overrides| > 0 then Inject(st, overrides, u, None) else st;
    var r := Resolve(st1, u, rank);
    assert Invoke(st, u, overrides, rank) == r;
    assert EntryKept(st1, r.st, s);
  }

  /** Every entry of a list that names a built singleton receives the
      singleton's one instance, however many entries name it. */
  lemma BuiltSingletonInEveryEntry(st: State, ts: seq<TypeId>, s: TypeId, i: InstanceId, below: nat, rank: TypeId -> nat)
    requires Valid(st) && Acyclic(st.deps, rank)
    requires forall k :: 0 <= k < |ts| ==> rank(ts[k]) < below
    requires ResolverOf(st, s) == Some(SingletonDone(i))
    ensures var a := ResolveArgs(st, ts, below, rank);
            forall k :: 0 <= k < |ts| && ts[k] == s ==> a.insts[k] == i
  {
    var a := ResolveArgs(st, ts, below, rank);
    assert EntryKept(st, a.st, s);
  }

  /** Two invocations of a pending singleton return the identical instance,
      and the type is constructed exactly once across both. */
  lemma SingletonConstructedOnce(st: State, t: TypeId, rank: TypeId -> nat)
    requires Valid(st) && Acyclic(st.deps, rank)
    requires ResolverOf(st, t) == Some(SingletonPending)
    ensures var s1 := Resolve(st, t, rank);
            var s2 := Resolve(s1.st, t, rank);
            && s2.inst == s1.inst
            && s2.st == s1.st
            && forall k :: |st.objects| <= k < |s2.st.objects| && s2.st.objects[k].ty == t ==> k == s1.inst
  {
    SingletonFirstCall(st, t, rank);
  }

  /** A type that is not a singleton gets a new instance on every call. */
  lemma TransientFresh(st: State, t: TypeId, rank: TypeId -> nat)
    requires Valid(st) && Acyclic(st.deps, rank)
    requires ResolverOf(st, t) in {None, Some(NoDeps), Some(WithDeps)}
    ensures var s := Resolve(st, t, rank);
            && s.inst == |s.st.objects| - 1 && s.inst >= |st.objects|
            && ResolverOf(s.st, t) == ResolverOf(Register(st, t).st, t)
  {
    var g := Register(st, t);
    assert g.resolver.NoDeps? || g.resolver.WithDeps?;
    assert Resolve(st, t, rank) == Call(g.st, t, g.resolver, rank);
  }

  /** Two invocations of a non-singleton type return two distinct instances
      of that type. */
  lemma TransientTwiceDistinct(st: State, t: TypeId, rank: TypeId -> nat)
    requires Valid(st) && Acyclic(st.deps, rank)
    requires ResolverOf(st, t) in {None, Some(NoDeps), Some(WithDeps)}
    ensures var s1 := Resolve(st, t, rank);
            var s2 := Resolve(s1.st, t, rank);
            && s1.inst != s2.inst
            && s2.st.objects[s1.inst].ty == t && s2.st.objects[s2.inst].ty == t
  {
    TransientFresh(st, t, rank);
    var s1 := Resolve(st, t, rank);
    TransientFresh(s1.st, t, rank);
    var s2 := Resolve(s1.st, t, rank);
    assert s2.st.objects[s1.inst] == s1.st.objects[s1.inst];
  }

  /** Resolvers ranked at or above the bound are untouched by a resolution
      below it. */
  lemma ExtendsFrame(st: State, st2: State, below: nat, rank: TypeId -> nat, u: TypeId)
    requires Extends(st, st2, below, rank)
    requires rank(u) >= below
    ensures ResolverOf(st2, u) == ResolverOf(st, u)
  {
    if u in st2.resolvers {
      assert u in st.resolvers && st2.resolvers[u] == st.resolvers[u];
    } else {
      assert u !in st.resolvers;
    }
  }

  lemma SingletonSeq(x: InstanceId, d: TypeId)
    ensures [x] + [] == [x] && [d][0] == d && [d][1..] == []
  {
  }

  /** Resolving a one-entry list is resolving its entry. */
  lemma ResolveArgsSingle(st: State, d: TypeId, below: nat, rank: TypeId -> nat)
    requires Valid(st) && Acyclic(st.deps, rank)
    requires rank(d) < below
    ensures var h := Resolve(st, d, rank);
            ResolveArgs(st, [d], below, rank) == Steps(h.st, [h.inst])
  {
    var h := Resolve(st, d, rank);
    SingletonSeq(h.inst, d);
    ResolveArgsCons(st, [d], below, rank);
    assert ResolveArgs(h.st, [], below, rank) == Steps(h.st, []);
  }

  /** A type with the one-entry list `[s]` and a with-deps resolver (cached or
      about to be) resolves `s` and is constructed with that instance. */
  lemma SingleDependencyUnfold(st: State, s: TypeId, a: TypeId, rank: TypeId -> nat)
    requires Valid(st) && Acyclic(st.deps, rank)
    requires ListOf(st.deps, a) == Some([s])
    requires ResolverOf(st, a) == None || ResolverOf(st, a) == Some(WithDeps)
    ensures var h := Resolve(Register(st, a).st, s, rank);
            Resolve(st, a, rank) == Construct(h.st, a, [h.inst])
  {
    var g := Register(st, a);
    assert rank(s) < rank(a) by {
      assert st.deps[a][0] == s;
    }
    WithDepsUnfold(st, a, rank);
    ResolveArgsSingle(g.st, s, rank(a), rank);
  }

  /** Resolving a type whose only dependency is a pending singleton builds
      the singleton first, right before the dependent, and hands it over as
      the one argument; no other instance of the singleton is built. */
  lemma DependentOfPendingSingleton(st: State, s: TypeId, a: TypeId, rank: TypeId -> nat, r: Step)
    requires Valid(st) && Acyclic(st.deps, rank)
    requires ResolverOf(st, s) == Some(SingletonPending)
    requires ListOf(st.deps, a) == Some([s])
    requires ResolverOf(st, a) == None || ResolverOf(st, a) == Some(WithDeps)
    requires r == Resolve(st, a, rank)
    ensures r.inst == |r.st.objects| - 1 && r.inst >= |st.objects| + 1
    ensures r.st.objects[r.inst] == Obj(a, [r.inst - 1])
    ensures r.st.objects[r.inst - 1].ty == s
    ensures ResolverOf(r.st, s) == Some(SingletonDone(r.inst - 1))
    ensures forall k :: |st.objects| <= k < |r.st.objects| && r.st.objects[k].ty == s ==> k == r.inst - 1
  {
    var g := Register(st, a);
    var h := Resolve(g.st, s, rank);
    SingleDependencyUnfold(st, s, a, rank);
    assert rank(s) < rank(a) by {
      assert st.deps[a][0] == s;
    }
    SingletonFirstCall(g.st, s, rank);
    ConstructAfterSingleton(h, s, a, |st.objects|, r);
  }

  /** Constructing `a` from a freshly built singleton instance of `s`. */
  lemma ConstructAfterSingleton(h: Step, s: TypeId, a: TypeId, base: nat, r: Step)
    requires s != a
    requires ResolverOf(h.st, s) == Some(SingletonDone(h.inst))
    requires h.inst == |h.st.objects| - 1 && h.inst >= base && h.st.objects[h.inst].ty == s
    requires forall k :: base <= k < |h.st.objects| && h.st.objects[k].ty == s ==> k == h.inst
    requires r == Construct(h.st, a, [h.inst])
    ensures r.inst == |r.st.objects| - 1 && r.inst >= base + 1
    ensures r.st.objects[r.inst] == Obj(a, [r.inst - 1])
    ensures r.st.objects[r.inst - 1].ty == s
    ensures ResolverOf(r.st, s) == Some(SingletonDone(r.inst - 1))
    ensures forall k :: base <= k < |r.st.objects| && r.st.objects[k].ty == s ==> k == r.inst - 1
  {
    assert r.st.objects[h.inst] == h.st.objects[h.inst];
    assert ResolverOf(r.st, s) == ResolverOf(h.st, s);
    forall k | base <= k < |r.st.objects| && r.st.objects[k].ty == s
      ensures k == r.inst - 1
    {
      if k < |h.st.objects| {
        assert r.st.objects[k] == h.st.objects[k];
      }
    }
  }

  /** That resolution leaves every resolver ranked above the singleton, other
      than the dependent's own, as it was. */
  lemma PendingDependentFrame(st: State, s: TypeId, a: TypeId, rank: TypeId -> nat, r: Step)
    requires Valid(st) && Acyclic(st.deps, rank)
    requires ResolverOf(st, s) == Some(SingletonPending)
    requires ListOf(st.deps, a) == Some([s])
    requires ResolverOf(st, a) == None || ResolverOf(st, a) == Some(WithDeps)
    requires r == Resolve(st, a, rank)
    ensures Valid(r.st) && r.st.deps == st.deps
    ensures forall u :: u != a && rank(u) > rank(s) ==> ResolverOf(r.st, u) == ResolverOf(st, u)
  {
    var g := Register(st, a);
    var h := Resolve(g.st, s, rank);
    SingleDependencyUnfold(st, s, a, rank);
    DependentFrame(st, g, h, a, rank(s) + 1, rank, r);
  }

  /** Building `a` on top of a nested resolution ranked below `below` keeps
      every resolver at or above it, except `a`'s own registration. */
  lemma DependentFrame(st: State, g: Registered, h: Step, a: TypeId, below: nat, rank: TypeId -> nat, r: Step)
    requires Valid(st) && g == Register(st, a)
    requires Valid(h.st) && Extends(g.st, h.st, below, rank) && h.inst < |h.st.objects|
    requires r == Construct(h.st, a, [h.inst])
    ensures Valid(r.st) && r.st.deps == st.deps
    ensures forall u :: u != a && rank(u) >= below ==> ResolverOf(r.st, u) == ResolverOf(st, u)
  {
    ConstructKeeps(h.st, a, [h.inst], rank);
    forall u | u != a && rank(u) >= below
      ensures ResolverOf(r.st, u) == ResolverOf(st, u)
    {
      ExtendsFrame(g.st, h.st, below, rank, u);
    }
  }

  /** When the singleton has no list, that resolution appends exactly the
      singleton and then the dependent. */
  lemma PendingDependentObjects(st: State, s: TypeId, a: TypeId, rank: TypeId -> nat)
    requires Valid(st) && Acyclic(st.deps, rank)
    requires ResolverOf(st, s) == Some(SingletonPending)
    requires ListOf(st.deps, a) == Some([s])
    requires ResolverOf(st, a) == None || ResolverOf(st, a) == Some(WithDeps)
    requires s !in st.deps
    ensures Resolve(st, a, rank).st.objects == st.objects + [Obj(s, []), Obj(a, [|st.objects|])]
  {
    var g := Register(st, a);
    var h := Resolve(g.st, s, rank);
    SingleDependencyUnfold(st, s, a, rank);
    NoDepsConstructionOfPending(g.st, s, rank);
    AppendTwo(st.objects, Obj(s, []), Obj(a, [|st.objects|]));
  }

  lemma AppendTwo(objs: seq<Obj>, x: Obj, y: Obj)
    ensures objs + [x] + [y] == objs + [x, y]
  {
  }

  /** A pending singleton without a list is built with zero arguments. */
  lemma NoDepsConstructionOfPending(st: State, s: TypeId, rank: TypeId -> nat)
    requires Valid(st) && Acyclic(st.deps, rank)
    requires ResolverOf(st, s) == Some(SingletonPending)
    requires s !in st.deps
    ensures Resolve(st, s, rank).st.objects == st.objects + [Obj(s, [])]
  {
    assert Resolve(st, s, rank) == BuildSingleton(st, s, rank);
  }

  /** Resolving a type whose only dependency is a built singleton constructs
      just that type, with the singleton's instance as its one argument. */
  lemma DependentOfBuiltSingleton(st: State, s: TypeId, b: TypeId, i: InstanceId, rank: TypeId -> nat)
    requires Valid(st) && Acyclic(st.deps, rank)
    requires ResolverOf(st, s) == Some(SingletonDone(i))
    requires ListOf(st.deps, b) == Some([s])
    requires ResolverOf(st, b) == None || ResolverOf(st, b) == Some(WithDeps)
    ensures var r := Resolve(st, b, rank);
            && r.st.objects == st.objects + [Obj(b, [i])]
            && r.inst == |st.objects|
            && ResolverOf(r.st, s) == Some(SingletonDone(i))
  {
    var g := Register(st, b);
    SingleDependencyUnfold(st, s, b, rank);
    assert s != b by {
      assert st.deps[b][0] == s;
    }
    assert Resolve(g.st, s, rank) == Step(g.st, i);
  }

  /** Resolving `a`, whose resolver reads its list and whose list names the
      singleton `s` at position `p`, leaves `s` built with the very instance
      `a` received at that position. */
  lemma ReceivesSingleton(st: State, s: TypeId, a: TypeId, p: nat, rank: TypeId -> nat, r: Step)
    requires Valid(st) && Acyclic(st.deps, rank)
    requires IsSingleton(st, s)
    requires a in st.deps && p < |st.deps[a]| && st.deps[a][p] == s
    requires ResolverOf(st, a) in {None, Some(WithDeps), Some(SingletonPending)}
    requires r == Resolve(st, a, rank)
    ensures Valid(r.st) && r.st.deps == st.deps && st.objects <= r.st.objects
    ensures Kept(st, r.st)
    ensures |st.objects| <= r.inst < |r.st.objects| && p < |r.st.objects[r.inst].args|
    ensures ResolverOf(r.st, s) == Some(SingletonDone(r.st.objects[r.inst].args[p]))
  {
    var g := Register(st, a);
    assert rank(s) < rank(a);
    if ResolverOf(st, a) == Some(SingletonPending) {
      assert g.st == st && g.resolver == SingletonPending;
      assert r == Call(st, a, SingletonPending, rank) == BuildSingleton(st, a, rank);
      assert ReceivedSingletons(st, r.st, a, r.inst);
    } else {
      assert g.resolver == WithDeps;
      assert r == Call(g.st, a, g.resolver, rank) == WithDepsRun(g.st, a, rank);
      assert IsSingleton(g.st, s);
    }
  }

  /** `ra` and `rb` received one shared instance of the singleton `s`, at
      positions `p` and `q` of their argument lists; it is the instance the
      cached resolver returns, and no other instance of `s` was built since
      `st`. */
  ghost predicate SharesSingleton(st: State, s: TypeId, ra: Step, rb: Step, p: nat, q: nat)
  {
    && |st.objects| <= ra.inst < |rb.st.objects| && |st.objects| <= rb.inst < |rb.st.objects|
    && p < |rb.st.objects[ra.inst].args| && q < |rb.st.objects[rb.inst].args|
    && rb.st.objects[ra.inst].args[p] == rb.st.objects[rb.inst].args[q]
    && ResolverOf(rb.st, s) == Some(SingletonDone(rb.st.objects[rb.inst].args[q]))
    && OnlyBuilt(st, rb.st, s, rb.st.objects[rb.inst].args[q])
  }

  /** Two types whose resolvers read their lists, and whose lists name one
      singleton, pending or built, at any positions, receive the identical
      instance when invoked one after the other, and at most one instance of
      the singleton is ever built. The second instance is a new one unless
      the second type is itself a singleton, which the first resolution may
      already have built. */
  lemma SharedSingleton(st: State, s: TypeId, a: TypeId, b: TypeId, p: nat, q: nat, rank: TypeId -> nat)
    requires Valid(st) && Acyclic(st.deps, rank)
    requires IsSingleton(st, s)
    requires a in st.deps && p < |st.deps[a]| && st.deps[a][p] == s
    requires b in st.deps && q < |st.deps[b]| && st.deps[b][q] == s
    requires ResolverOf(st, a) in {None, Some(WithDeps), Some(SingletonPending)}
    requires ResolverOf(st, b) in {None, Some(WithDeps), Some(SingletonPending)}
    ensures var ra := Resolve(st, a, rank);
            SharesSingleton(st, s, ra, Resolve(ra.st, b, rank), p, q)
    ensures var ra := Resolve(st, a, rank);
            ResolverOf(st, b) != Some(SingletonPending) ==> ra.inst < Resolve(ra.st, b, rank).inst
    ensures var ra := Resolve(st, a, rank);
            FreshOrCached(ra.st, b, Resolve(ra.st, b, rank))
  {
    var ra := Resolve(st, a, rank);
    ReceivesSingleton(st, s, a, p, rank, ra);
    SecondDependent(st, ra, Resolve(ra.st, b, rank), s, b, p, q, rank);
    ResolveShape(ra.st, b, rank, Resolve(ra.st, b, rank));
  }

  /** `r` is what resolving `t` from `st` returns: the cached instance when
      `t` is a built singleton, and a new object, the last one, otherwise. */
  ghost predicate FreshOrCached(st: State, t: TypeId, r: Step)
  {
    if ResolverOf(st, t).Some? && ResolverOf(st, t).value.SingletonDone? then
      r == Step(st, ResolverOf(st, t).value.inst)
    else
      |st.objects| <= r.inst == |r.st.objects| - 1
  }

  /** Resolving a type returns a built singleton's instance with no change,
      and otherwise constructs a new instance last. */
  lemma ResolveShape(st: State, t: TypeId, rank: TypeId -> nat, r: Step)
    requires Valid(st) && Acyclic(st.deps, rank)
    requires r == Resolve(st, t, rank)
    ensures FreshOrCached(st, t, r)
  {
    var g := Register(st, t);
    assert r == Call(g.st, t, g.resolver, rank);
    if t !in st.resolvers {
      assert !g.resolver.SingletonDone?;
    }
  }

  /** The second resolution, from the state the first one left. */
  lemma SecondDependent(st: State, ra: Step, rb: Step, s: TypeId, b: TypeId, p: nat, q: nat, rank: TypeId -> nat)
    requires Valid(ra.st) && Acyclic(ra.st.deps, rank) && ra.st.deps == st.deps && st.objects <= ra.st.objects
    requires Kept(st, ra.st) && IsSingleton(st, s)
    requires b in st.deps && q < |st.deps[b]| && st.deps[b][q] == s
    requires ResolverOf(st, b) in {None, Some(WithDeps), Some(SingletonPending)}
    requires |st.objects| <= ra.inst < |ra.st.objects| && p < |ra.st.objects[ra.inst].args|
    requires ResolverOf(ra.st, s) == Some(SingletonDone(ra.st.objects[ra.inst].args[p]))
    requires rb == Resolve(ra.st, b, rank)
    ensures SharesSingleton(st, s, ra, rb, p, q)
    ensures ResolverOf(st, b) != Some(SingletonPending) ==> ra.inst < rb.inst
  {
    assert EntryKept(st, ra.st, b);
    if ResolverOf(ra.st, b).Some? && ResolverOf(ra.st, b).value.SingletonDone? {
      assert EntryKept(st, ra.st, s);
      BuiltWhileFirstResolved(st, ra, rb, s, b, p, q, rank);
    } else {
      SecondReadsList(st, ra, rb, s, b, p, q, rank);
    }
  }

  /** The second type's resolver still reads its list once the first one is
      resolved: it receives the singleton's cached instance in turn. */
  lemma SecondReadsList(st: State, ra: Step, rb: Step, s: TypeId, b: TypeId, p: nat, q: nat, rank: TypeId -> nat)
    requires Valid(ra.st) && Acyclic(ra.st.deps, rank) && ra.st.deps == st.deps && st.objects <= ra.st.objects
    requires Kept(st, ra.st) && IsSingleton(st, s)
    requires b in st.deps && q < |st.deps[b]| && st.deps[b][q] == s
    requires ResolverOf(st, b) in {None, Some(WithDeps), Some(SingletonPending)}
    requires ResolverOf(ra.st, b) in {None, Some(WithDeps), Some(SingletonPending)}
    requires |st.objects| <= ra.inst < |ra.st.objects| && p < |ra.st.objects[ra.inst].args|
    requires ResolverOf(ra.st, s) == Some(SingletonDone(ra.st.objects[ra.inst].args[p]))
    requires rb == Resolve(ra.st, b, rank)
    ensures SharesSingleton(st, s, ra, rb, p, q)
    ensures ra.inst < rb.inst
  {
    assert EntryKept(st, ra.st, s);
    ReceivesSingleton(ra.st, s, b, q, rank, rb);
    SharedInstance(st, ra.st, rb.st, s, ra.inst, rb.inst, p, q);
  }

  /** The second type is a singleton that resolving the first one built: it
      returns that cached instance, whose arguments were the singletons'
      cached instances. */
  lemma BuiltWhileFirstResolved(st: State, ra: Step, rb: Step, s: TypeId, b: TypeId, p: nat, q: nat, rank: TypeId -> nat)
    requires Valid(ra.st) && Acyclic(ra.st.deps, rank) && ra.st.deps == st.deps && st.objects <= ra.st.objects
    requires IsSingleton(st, s) && EntryKept(st, ra.st, s) && EntryKept(st, ra.st, b)
    requires b in st.deps && q < |st.deps[b]| && st.deps[b][q] == s
    requires ResolverOf(st, b) in {None, Some(WithDeps), Some(SingletonPending)}
    requires ResolverOf(ra.st, b).Some? && ResolverOf(ra.st, b).value.SingletonDone?
    requires |st.objects| <= ra.inst < |ra.st.objects| && p < |ra.st.objects[ra.inst].args|
    requires ResolverOf(ra.st, s) == Some(SingletonDone(ra.st.objects[ra.inst].args[p]))
    requires rb == Resolve(ra.st, b, rank)
    ensures SharesSingleton(st, s, ra, rb, p, q)
    ensures ResolverOf(st, b) == Some(SingletonPending)
  {
    var j := ra.st.resolvers[b].inst;
    assert ReceivedSingletons(st, ra.st, b, j);
    assert Register(ra.st, b).st == ra.st;
    assert rb == Call(ra.st, b, SingletonDone(j), rank) == Step(ra.st, j);
  }

  /** The two receptions seen on the final heap. */
  lemma SharedInstance(st: State, st2: State, st3: State, s: TypeId, ia: InstanceId, ib: InstanceId, p: nat, q: nat)
    requires IsSingleton(st, s) && st.deps == st2.deps
    requires st.objects <= st2.objects <= st3.objects
    requires Kept(st, st2) && Kept(st2, st3)
    requires |st.objects| <= ia < |st2.objects| <= ib < |st3.objects|
    requires p < |st2.objects[ia].args| && q < |st3.objects[ib].args|
    requires ResolverOf(st2, s) == Some(SingletonDone(st2.objects[ia].args[p]))
    requires ResolverOf(st3, s) == Some(SingletonDone(st3.objects[ib].args[q]))
    ensures && |st.objects| <= ia < ib < |st3.objects|
            && p < |st3.objects[ia].args| && q < |st3.objects[ib].args|
            && st3.objects[ia].args[p] == st3.objects[ib].args[q]
            && OnlyBuilt(st, st3, s, st3.objects[ib].args[q])
  {
    assert st3.objects[ia] == st2.objects[ia];
    assert EntryKept(st2, st3, s);
    KeptParts(st, st2);
    KeptParts(st2, st3);
    EntryKeptTrans(st, st2, st3, s);
    assert EntryKept(st, st3, s);
  }

  /** The second dependent, resolved once the singleton is built. */
  lemma SecondDependentBuilt(st: State, ra: Step, s: TypeId, a: TypeId, b: TypeId, rank: TypeId -> nat)
    requires Valid(st) && Acyclic(st.deps, rank)
    requires ListOf(st.deps, b) == Some([s]) && a != b
    requires ResolverOf(st, b) == None || ResolverOf(st, b) == Some(WithDeps)
    requires Valid(ra.st) && ra.st.deps == st.deps && 1 <= ra.inst
    requires ResolverOf(ra.st, s) == Some(SingletonDone(ra.inst - 1))
    requires forall u :: u != a && rank(u) > rank(s) ==> ResolverOf(ra.st, u) == ResolverOf(st, u)
    ensures var rb := Resolve(ra.st, b, rank);
            rb.st.objects == ra.st.objects + [Obj(b, [ra.inst - 1])] && rb.inst == |ra.st.objects|
  {
    assert rank(s) < rank(b) by {
      assert st.deps[b][0] == s;
    }
    assert ResolverOf(ra.st, b) == ResolverOf(st, b);
    DependentOfBuiltSingleton(ra.st, s, b, ra.inst - 1, rank);
  }

}

=== FILE: scenario.dfy ===
/** The library's own usage scenario: a singleton `One` and two classes `Two`
    and `Three` that each declare `One` as their only dependency. Each
    constructor records its class name in the shared `loaded` list of the
    `One` instance it receives. */
module SingletonScenario {
  import opened Engine
  import opened EngineFacts

  const One: TypeId := 1
  const Two: TypeId := 2
  const Three: TypeId := 3

  /** Every edge of the scenario's graph goes to a smaller identity. */
  function Rank(t: TypeId): nat
  {
    t
  }

  /** The state once the three class decorators have run, in declaration
      order: `@singleton` on `One`, then `@inject(One)` on `Two` and on
      `Three`. */
  function Declared(): (st: State)
    ensures Valid(st) && Acyclic(st.deps, Rank)
    ensures ResolverOf(st, One) == Some(SingletonPending)
    ensures ListOf(st.deps, Two) == Some([One]) && ListOf(st.deps, Three) == Some([One])
    ensures ResolverOf(st, Two) == None && ResolverOf(st, Three) == None
    ensures One !in st.deps && st.objects == []
  {
    var s0 := Singleton(Init, One);
    var s1 := Inject(s0, [One], Two, None);
    Inject(s1, [One], Three, None)
  }

  /** The classes that received instance `i` as a constructor argument, in
      construction order. */
  function Receivers(objects: seq<Obj>, i: InstanceId): seq<TypeId>
    decreases |objects|
  {
    if objects == [] then []
    else
      var last := objects[|objects| - 1];
      var before := Receivers(objects[..|objects| - 1], i);
      if i in last.args then before + [last.ty] else before
  }

  /** The `loaded` list of instance `i`: its own class name, pushed by its
      constructor, followed by the name of every class that received it. */
  function Loaded(objects: seq<Obj>, i: InstanceId): (names: seq<TypeId>)
    requires i < |objects|
  {
    [objects[i].ty] + Receivers(objects, i)
  }

  /** What the library's test observes after `invoke(Two)` and then
      `invoke(Three)`: both received the one `One` instance, which was built
      first and once, and its `loaded` list names all three classes in
      order. */
  ghost predicate TestObservations(two: Step, three: Step)
  {
    && two.inst < |two.st.objects| && three.inst < |three.st.objects|
    && two.st.objects[two.inst] == Obj(Two, [0])
    && two.st.objects[0].ty == One
    && three.st.objects[three.inst] == Obj(Three, [0])
    && three.st.objects == [Obj(One, []), Obj(Two, [0]), Obj(Three, [0])]
    && Trace(three.st) == [One, Two, Three]
    && Loaded(three.st.objects, 0) == [One, Two, Three]
  }

  /** The assertions of the library's test hold of the model. */
  lemma InvokeTwoThenThree()
    ensures var two := Invoke(Declared(), Two, [], Rank);
            TestObservations(two, Invoke(two.st, Three, [], Rank))
  {
    var two := Invoke(Declared(), Two, [], Rank);
    InvokeTwoThenThreeSteps(two, Invoke(two.st, Three, [], Rank));
  }

  lemma InvokeTwoThenThreeSteps(two: Step, three: Step)
    requires two == Invoke(Declared(), Two, [], Rank)
    requires three == Invoke(two.st, Three, [], Rank)
    ensures TestObservations(two, three)
  {
    var st := Declared();
    InvokeWithoutOverrides(st, Two, Rank);
    InvokeWithoutOverrides(two.st, Three, Rank);
    DependentOfPendingSingleton(st, One, Two, Rank, two);
    PendingDependentFrame(st, One, Two, Rank, two);
    PendingDependentObjects(st, One, Two, Rank);
    SecondDependentBuilt(st, two, One, Two, Three, Rank);
    HeapOfScenario(two.st.objects, three.st.objects);
  }

  /** The heap the scenario leaves, and what can be read off it. */
  lemma HeapOfScenario(objects2: seq<Obj>, objects3: seq<Obj>)
    requires objects2 == [Obj(One, []), Obj(Two, [0])]
    requires objects3 == objects2 + [Obj(Three, [0])]
    ensures objects3 == [Obj(One, []), Obj(Two, [0]), Obj(Three, [0])]
    ensures Trace(State(map[], map[], objects3)) == [One, Two, Three]
    ensures Loaded(objects3, 0) == [One, Two, Three]
  {
    assert objects3[..2] == objects2;
    assert objects2[..1] == [Obj(One, [])];
    assert [Obj(One, [])][..0] == [];
    assert Receivers([Obj(One, [])], 0) == [];
    assert Receivers(objects2, 0) == [Two];
  }
}
